=== FILE: README.md ===
# ExifTime — a verified model of the metadata time-of-day value

`ExifTime` is the time-of-day value of exiftool-vendored: an hour, minute and
second, an optional millisecond, and the raw metadata text the value was
parsed from. This project models it in Dafny as an immutable datatype with
pure, `Option`-returning functions, and proves what it promises:

- `FromExif` trims its input and rejects blank text and all-zero placeholders
  such as `"0"` or `"00"` before any format is tried. A recorded midnight
  `"00:00:00"` is not a placeholder.
- It then tries four format patterns in a fixed order (`HH:mm:ss.uZZ`,
  `HH:mm:ssZZ`, `HH:mm:ss.u`, `HH:mm:ss`). The first pattern the date-time
  engine accepts gives the result, and later patterns are never consulted.
- A parsed value carries the trimmed text as `rawValue`, plus exactly the
  fields the engine reported.
- `FromDateTime` yields nothing for an absent or invalid engine result.
  Otherwise it copies the fields unchanged.
- `ToString` renders `HH:MM:SS` (each field padded to at least two digits)
  and adds a `.mmm` suffix only for a present, non-zero millisecond. The
  suffix has three digits for a millisecond below 1000; a larger one is kept
  whole. `ToIsoString` and `ToExifString` give the same string. Rendering is
  injective on in-range clocks.
- `ToJson` / `FromJson` map to and from a record tagged `"ExifTime"`. The
  round trip loses nothing in either direction.

Layout:

- `Maybe.dfy`: `Option`, `Bind` and the ordered first-match combinator `First`.
- `Strings.dfy`: the helpers the type uses. These are ECMAScript whitespace
  trimming, the blank test, decimal rendering and left padding with `'0'`.
  Their bodies in `src/String.ts` are not part of this model. The
  definitions here are plain ones with the meaning those helpers are used for.
- `ExifTime.dfy`: the value type, text parsing, rendering and the record form.
- `Hms.dfy`: a hand-written engine that knows only the bare `HH:mm:ss` shape.
  With it the model shows the round trip in both directions: every accepted
  text renders back to its trimmed form, and every real clock time rendered
  without a fraction, with whitespace around it, parses back to the same
  clock. It also shows that midnight parses, and that placeholders and
  garbage are rejected.

The date-time engine (Luxon's `DateTime.fromFormat`) is a parameter,
`parse: (string, Format) -> Option<DateTime>`. `None` stands for a null result
and `isValid == false` for an invalid one.

Two facts about the program shape the model:

- The constructor and `fromJSON` check nothing (src/ExifTime.ts:30-36,
  71-79). So the fields are unconstrained `nat`s, and ranges appear only in
  the requires of the rendering lemmas.
- `fromDateTime` always stores the engine's millisecond (src/ExifTime.ts:27).
  So every parsed value has `Some(ms)`, and it is `Some(0)` for text without a
  fraction. The millisecond is absent only for values built directly or from
  a record.

## Model

| member | source | states |
|---|---|---|
| Maybe.First | src/ExifTime.ts:17-21 | the result is the value of the earliest element that yields one, with every earlier element yielding nothing; the result is nothing exactly when no element yields anything |
| Maybe.Bind | src/ExifTime.ts:20 | an absent engine result stays absent; a present one is handed to the continuation and its result returned |
| Maybe.FirstIgnoresSuffix | src/ExifTime.ts:17-21 | elements after the first success are never consulted: two matchers that agree up to that success give the same result |
| Strings.Trim | src/ExifTime.ts:15 | the result is an infix of the input, has no whitespace at either end, and everything cut off on either side is whitespace |
| Strings.TrimOfTrimmed | src/ExifTime.ts:15 | text with no whitespace at either end is left unchanged by trimming |
| Strings.TrimDropsBlankEnds | src/ExifTime.ts:15 | surrounding non-empty trimmed text with whitespace runs does not change what trimming yields |
| Strings.TrimEmptyIffBlank | src/ExifTime.ts:15-16 | trimming yields the empty string exactly when the input is all whitespace, so the blank test on trimmed text is emptiness |
| Strings.Pad2 | src/ExifTime.ts:49 | two-digit padding is all digits, reads back as the number, is exactly two characters below 100, and from 100 on is the plain decimal, never truncated |
| Strings.Pad3 | src/ExifTime.ts:45 | three-digit padding is all digits, reads back as the number, is exactly three characters below 1000, and from 1000 on is the plain decimal, never truncated |
| Strings.TwoDigitsUnique | src/ExifTime.ts:49 | every two-digit run is the two-digit padding of the number it denotes |
| ExifTime.OnlyZeros | src/ExifTime.ts:8 | the character-by-character match of `^0+$` holds exactly when the text is non-empty and every character is '0' |
| ExifTime.ColonIsNotSentinel | src/ExifTime.ts:5-8 | text containing a colon is neither blank nor a zero run, so a recorded midnight is never rejected as a placeholder |
| ExifTime.FromDateTime | src/ExifTime.ts:24-28 | nothing exactly when the engine result is absent or invalid; otherwise hour, minute, second, millisecond and raw text are carried over unchanged |
| ExifTime.Attempt | src/ExifTime.ts:19-20 | one pattern yields a time exactly when the engine accepts the text with it, and the time holds the engine's fields and the trimmed text |
| ExifTime.FromExif | src/ExifTime.ts:14-22 | blank or all-zero trimmed text gives nothing whatever the engine does; otherwise a time exists exactly when some pattern is accepted; it comes from the earliest accepted pattern and carries the trimmed text as raw value |
| ExifTime.EarliestPatternWins | src/ExifTime.ts:17-21 | when pattern i is the earliest accepted one, the parse result is exactly the time the engine reported for pattern i |
| ExifTime.LaterPatternsIgnored | src/ExifTime.ts:17-21 | engines that agree on the patterns up to the first accepted one give the same parse result, so later patterns are never consulted |
| ExifTime.Subsec | src/ExifTime.ts:42-46 | the suffix is empty exactly when the millisecond is absent or zero; otherwise it is a dot followed by digits that read back as the millisecond |
| ExifTime.ToString | src/ExifTime.ts:48-50 | the rendering contains a dot exactly when the millisecond is present and non-zero |
| ExifTime.ToIsoString | src/ExifTime.ts:52-54 | contains a dot exactly when the millisecond is present and non-zero |
| ExifTime.ToExifString | src/ExifTime.ts:56-58 | contains a dot exactly when the millisecond is present and non-zero |
| ExifTime.ClockLayout | src/ExifTime.ts:49 | for fields below 100 the clock is 8 characters with colons at positions 2 and 5, and its three digit pairs read back as hour, minute and second |
| ExifTime.RenderWithoutFraction | src/ExifTime.ts:42-58 | with an absent or zero millisecond the rendering is the 8-character clock with no dot, and all three renderings are equal |
| ExifTime.RenderWithFraction | src/ExifTime.ts:42-58 | with a millisecond from 1 to 999 the rendering is the clock, a dot and three digits that read back as the millisecond, 12 characters in all, and all three renderings are equal |
| ExifTime.RenderInjective | src/ExifTime.ts:42-50 | two in-range times with the same rendering have the same hour, minute, second and millisecond, where absent counts as zero |
| ExifTime.ToJson | src/ExifTime.ts:60-69 | the record always carries the tag "ExifTime" and the five fields unchanged, an absent millisecond or raw text staying absent |
| ExifTime.FromJson | src/ExifTime.ts:71-79 | the time takes the record's five fields unchanged, without validation |
| ExifTime.JsonRoundTrip | src/ExifTime.ts:60-79 | deserializing a serialized time gives back the same time in all five fields |
| ExifTime.JsonRecordRoundTrip | src/ExifTime.ts:60-79 | every record tagged "ExifTime" is the serialization of the time it deserializes to |
| Hms.RecognizeHms | src/ExifTime.ts:18 | a recognized text is 8 characters with colons at positions 2 and 5, each field is below 100, and the text is exactly the two-digit padded fields joined by colons |
| Hms.RecognizeClock | src/ExifTime.ts:49 | the bare-pattern recognizer reads back the hour, minute and second of a rendered clock whose fields are below 100 |
| Hms.PlainTextRoundTrip | src/ExifTime.ts:14-50 | a real clock time rendered without a fraction, with whitespace around it, parses to the same clock, a zero millisecond and the trimmed text as raw value, and renders back to that text |
| Hms.AcceptedTextRendersBack | src/ExifTime.ts:14-50 | with the bare-pattern engine, every text that parses renders back to exactly its trimmed form |
| Hms.MidnightParses | src/ExifTime.ts:5-21 | with the bare-pattern engine, "00:00:00" parses to midnight rather than being rejected as a placeholder |
| Hms.BlankRejected | src/ExifTime.ts:15-16 | all-whitespace text gives nothing whatever the engine does |
| Hms.ZerosRejected | src/ExifTime.ts:8-16 | a run of zeros with whitespace around it gives nothing whatever the engine does |
| Hms.GarbageRejected | src/ExifTime.ts:17-21 | the bare-pattern engine accepts "not-a-time" under no pattern, so the parse gives nothing |

## Left out

- Luxon's `DateTime.fromFormat` and the meaning of the `u` and `ZZ` tokens: a foreign library. The engine is a parameter. So the model does not say whether an offset-bearing parse shifts the hour into a local zone, and it does not claim "offset discarded, hour unchanged".
- The bodies of `first`, `map`, `toS`, `blank`, `pad2` and `pad3` (src/Maybe.ts and src/String.ts) are not part of this model. They get plain definitions here: first match over a list, `Bind`, ECMAScript trim, all-whitespace, and left padding with `'0'` that never truncates.
- The `toS` coercion of non-string input (src/ExifTime.ts:15): the input here is already a string.
- JSON text encoding: `ToJson` produces a record datatype, not serialized text. A `null` and an omitted field are both `None`.
- Range checks on hour, minute and second: the source has none. Negative or fractional JavaScript numbers are also out, because the fields are `nat`.
- JavaScript numbers are doubles: values of 2^53 and above are inexact, and `String(n)` uses exponent notation from 10^21 on. `Decimal` and `Pad` render every `nat` in plain digits, so `Pad2`/`Pad3` match `pad2`/`pad3` only below 10^21.
- The `millis` getter (src/ExifTime.ts:38-40) is not a separate member: it returns the stored millisecond, which is the datatype field `millisecond`.
- Hms.PlainEngine covers only the bare `HH:mm:ss` pattern and reports a zero millisecond. The round trip through fractions and offsets depends on the engine and is not modelled.

=== FILE: ExifTime.dfy ===
/** A time of day read from metadata: hour, minute, second, an optional
    millisecond and the raw text it was parsed from. The type has no time
    zone; an offset in the text is consumed by the date-time engine and not
    kept. Construction from text either yields a value or nothing. */
module ExifTime {
  import opened Maybe
  import opened Strings

  /** The value type. Fields are not range-checked: the constructor
      trusts its callers, as the record deserializer trusts its input. `rawValue` is the trimmed text a parsed value came from. */
  datatype ExifTime = ExifTime(
    hour: nat,
    minute: nat,
    second: nat,
    millisecond: Option<nat>,
    rawValue: Option<string>)

  /** What the date-time engine reports for a text and a format pattern: a
      flag saying whether the parse produced a valid time, and the fields it
      read. A failed parse is an invalid value rather than an absent one. */
  datatype DateTime = DateTime(isValid: bool, hour: nat, minute: nat, second: nat, millisecond: nat)

  /** The four format patterns the text parser knows, in the engine's
      spelling: `FracOffset` is "HH:mm:ss.uZZ", `Offset` is "HH:mm:ssZZ",
      `Frac` is "HH:mm:ss.u" and `Plain` is "HH:mm:ss". */
  datatype Format = FracOffset | Offset | Frac | Plain

  /** The patterns in the order `fromEXIF` tries them. */
  const Formats: seq<Format> := [FracOffset, Offset, Frac, Plain]

  /** The date-time engine, which this model does not open: given a text and
      a pattern it reports a date-time, or nothing at all. */
  type Parser = (string, Format) -> Option<DateTime>

  // ---------------------------------------------------------------------
  // Construction

  /** The anchored pattern `^0+$`, matched one character at a time: a
      non-empty run of the character '0' and nothing else, the placeholder
      some metadata writers use for "time unknown". */
  function OnlyZeros(s: string): (b: bool)
    ensures b <==> |s| > 0 && forall k :: 0 <= k < |s| ==> s[k] == '0'
  {
    if |s| == 0 then false
    else if |s| == 1 then s[0] == '0'
    else s[0] == '0' && OnlyZeros(s[1..])
  }

  /** Trimmed text that is rejected before any pattern is tried. */
  predicate IsSentinel(t: string) {
    Blank(t) || OnlyZeros(t)
  }

  /** Text with a colon in it is never a sentinel, so a recorded midnight
      such as "00:00:00" always reaches the pattern matching. */
  lemma ColonIsNotSentinel(t: string, k: nat)
    requires k < |t| && t[k] == ':'
    ensures !IsSentinel(t)
  {
    assert !IsWhitespace(t[k]);
  }

  /** Builds a time from an engine result; nothing when there is no result
      or the result is invalid, otherwise its fields unchanged. */
  function FromDateTime(dt: Option<DateTime>, raw: Option<string>): (r: Option<ExifTime>)
    ensures r.None? <==> dt.None? || !dt.value.isValid
    ensures r.Some? ==>
              && r.value.hour == dt.value.hour && r.value.minute == dt.value.minute
              && r.value.second == dt.value.second && r.value.millisecond == Some(dt.value.millisecond)
    ensures r.Some? ==> r.value.rawValue == raw
  {
    if dt.None? || !dt.value.isValid then None
    else Some(ExifTime(dt.value.hour, dt.value.minute, dt.value.second, Some(dt.value.millisecond), raw))
  }

  /** The engine read trimmed text `t` with pattern `f` as a valid time. */
  predicate Accepts(parse: Parser, t: string, f: Format) {
    parse(t, f).Some? && parse(t, f).value.isValid
  }

  /** Position `i` of `Formats` is the earliest pattern the engine accepts. */
  predicate ChosenAt(parse: Parser, t: string, i: int) {
    && 0 <= i < |Formats|
    && Accepts(parse, t, Formats[i])
    && forall j :: 0 <= j < i ==> !Accepts(parse, t, Formats[j])
  }

  /** The time a valid engine result denotes, tagged with its source text. */
  function Parsed(dt: DateTime, t: string): ExifTime {
    ExifTime(dt.hour, dt.minute, dt.second, Some(dt.millisecond), Some(t))
  }

  /** One pattern's attempt on trimmed text `t`. */
  function Attempt(parse: Parser, t: string, f: Format): (r: Option<ExifTime>)
    ensures r.Some? <==> Accepts(parse, t, f)
    ensures r.Some? ==> r.value == Parsed(parse(t, f).value, t)
  {
    Bind(parse(t, f), dt => FromDateTime(Some(dt), Some(t)))
  }

  /** The attempts on `t`, as the function the first-match combinator runs. */
  function Attempts(parse: Parser, t: string): Format -> Option<ExifTime> {
    f => Attempt(parse, t, f)
  }

  /** Parses metadata text. The text is trimmed; a blank or all-zero result
      is rejected outright; otherwise the patterns are tried in order and the
      first one the engine accepts gives the time, carrying the trimmed text
      as its raw value. */
  function FromExif(text: string, parse: Parser): (r: Option<ExifTime>)
    ensures IsSentinel(Trim(text)) ==> r.None?
    ensures r.Some? <==>
              && !IsSentinel(Trim(text))
              && exists i :: 0 <= i < |Formats| && Accepts(parse, Trim(text), Formats[i])
    ensures r.Some? ==> r.value.rawValue == Some(Trim(text))
    ensures r.Some? ==> exists i :: (ChosenAt(parse, Trim(text), i)
              && r.value == Parsed(parse(Trim(text), Formats[i]).value, Trim(text)))
  {
    var t := Trim(text);
    if IsSentinel(t) then None
    else
      var r := First(Formats, Attempts(parse, t));
      assert r.Some? ==> exists i :: (0 <= i < |Formats| && Attempts(parse, t)(Formats[i]) == r
                                       && FailsBefore(Formats, Attempts(parse, t), i));
      r
  }

  /** The earliest accepting pattern decides the result. */
  lemma EarliestPatternWins(text: string, parse: Parser, i: int)
    requires !IsSentinel(Trim(text))
    requires ChosenAt(parse, Trim(text), i)
    ensures FromExif(text, parse) == Some(Parsed(parse(Trim(text), Formats[i]).value, Trim(text)))
  {
    var r := FromExif(text, parse);
    assert r.Some?;
    var k :| ChosenAt(parse, Trim(text), k)
      && r.value == Parsed(parse(Trim(text), Formats[k]).value, Trim(text));
    assert Accepts(parse, Trim(text), Formats[k]) && Accepts(parse, Trim(text), Formats[i]);
    assert k == i;
  }

  /** Patterns after the accepting one are never consulted: engines that
      agree on the patterns up to and including it give the same result. */
  lemma LaterPatternsIgnored(text: string, parse: Parser, other: Parser, i: int)
    requires ChosenAt(parse, Trim(text), i)
    requires forall j :: 0 <= j <= i ==> parse(Trim(text), Formats[j]) == other(Trim(text), Formats[j])
    ensures FromExif(text, parse) == FromExif(text, other)
  {
    var t := Trim(text);
    forall j | 0 <= j <= i
      ensures Attempts(parse, t)(Formats[j]) == Attempts(other, t)(Formats[j])
    {
      assert parse(t, Formats[j]) == other(t, Formats[j]);
    }
    FirstIgnoresSuffix(Formats, Attempts(parse, t), Attempts(other, t), i);
  }

  // ---------------------------------------------------------------------
  // Rendering

  /** A millisecond is present and non-zero, so a fraction is rendered. */
  predicate HasFraction(t: ExifTime) {
    t.millisecond.Some? && t.millisecond.value != 0
  }

  /** The fractional suffix: "." and the millisecond, three digits for a
      millisecond below 1000 and kept whole above; or nothing. */
  function Subsec(t: ExifTime): (r: string)
    ensures r == [] <==> !HasFraction(t)
    ensures HasFraction(t) ==> r[0] == '.' && AllDigits(r[1..]) && DigitsValue(r[1..]) == t.millisecond.value
  {
    if t.millisecond.None? || t.millisecond.value == 0 then ""
    else
      var r := "." + Pad3(t.millisecond.value);
      assert r[1..] == Pad3(t.millisecond.value);
      r
  }

  /** Hour, minute and second, each padded to two digits, joined by colons. */
  function Clock(t: ExifTime): string {
    Pad2(t.hour) + ":" + Pad2(t.minute) + ":" + Pad2(t.second)
  }

  /** The display form: the clock, then the fractional suffix. For fields
      below 100 and a millisecond below 1000 this is `HH:MM:SS[.mmm]`. A dot
      appears exactly when the time has a non-zero millisecond. */
  function ToString(t: ExifTime): (r: string)
    ensures '.' in r <==> HasFraction(t)
  {
    var c := Clock(t);
    var r := c + Subsec(t);
    assert forall k :: 0 <= k < |c| ==> c[k] != '.' by {
      assert AllDigits(Pad2(t.hour)) && AllDigits(Pad2(t.minute)) && AllDigits(Pad2(t.second));
    }
    assert HasFraction(t) ==> r[|c|] == '.';
    r
  }

  /** The ISO-style form; a time without zone renders as `ToString`. */
  function ToIsoString(t: ExifTime): (r: string)
    ensures '.' in r <==> HasFraction(t)
  {
    ToString(t)
  }

  /** The metadata-style form; also the same as `ToString`. */
  function ToExifString(t: ExifTime): (r: string)
    ensures '.' in r <==> HasFraction(t)
  {
    ToString(t)
  }

  /** Hour, minute and second fit in two digits each. */
  predicate ClockInRange(t: ExifTime) {
    t.hour < 100 && t.minute < 100 && t.second < 100
  }

  /** The 8-character clock reads back as the hour, minute and second. */
  lemma ClockLayout(t: ExifTime)
    requires ClockInRange(t)
    ensures |Clock(t)| == 8 && Clock(t)[2] == ':' && Clock(t)[5] == ':'
    ensures AllDigits(Clock(t)[0..2]) && DigitsValue(Clock(t)[0..2]) == t.hour
    ensures AllDigits(Clock(t)[3..5]) && DigitsValue(Clock(t)[3..5]) == t.minute
    ensures AllDigits(Clock(t)[6..8]) && DigitsValue(Clock(t)[6..8]) == t.second
  {
    ColonJoin(Pad2(t.hour), Pad2(t.minute), Pad2(t.second));
  }

  /** Three two-character parts joined by colons sit at fixed positions. */
  lemma ColonJoin(a: string, b: string, c: string)
    requires |a| == 2 && |b| == 2 && |c| == 2
    ensures var j := a + ":" + b + ":" + c;
      |j| == 8 && j[2] == ':' && j[5] == ':' && j[0..2] == a && j[3..5] == b && j[6..8] == c
  {
    var j := a + ":" + b + ":" + c;
    assert j[0..2] == a;
    assert j[3..5] == b;
    assert j[6..8] == c;
  }

  /** Without a fraction the rendering is exactly the 8-character clock,
      dot-free, and all three renderings agree. */
  lemma RenderWithoutFraction(t: ExifTime)
    requires ClockInRange(t) && !HasFraction(t)
    ensures ToString(t) == Clock(t)
    ensures |ToString(t)| == 8 && '.' !in ToString(t)
    ensures ToIsoString(t) == ToString(t) && ToExifString(t) == ToString(t)
  {
    ClockLayout(t);
    assert Subsec(t) == [];
  }

  /** With a fraction of at most three digits the rendering is the clock,
      a dot, and the millisecond in exactly three digits; all three
      renderings agree. */
  lemma RenderWithFraction(t: ExifTime)
    requires ClockInRange(t) && HasFraction(t) && t.millisecond.value <= 999
    ensures |ToString(t)| == 12
    ensures ToString(t)[..8] == Clock(t) && ToString(t)[8] == '.'
    ensures ToString(t)[9..] == Pad3(t.millisecond.value)
    ensures AllDigits(ToString(t)[9..]) && DigitsValue(ToString(t)[9..]) == t.millisecond.value
    ensures ToIsoString(t) == ToString(t) && ToExifString(t) == ToString(t)
  {
    ClockLayout(t);
    var r := ToString(t);
    assert r == Clock(t) + ("." + Pad3(t.millisecond.value));
  }

  /** The millisecond as rendering sees it: absent and zero are the same. */
  function Fraction(t: ExifTime): nat {
    if t.millisecond.Some? then t.millisecond.value else 0
  }

  /** Rendering loses only the raw text and the absent/zero distinction:
      two in-range times with the same string agree on everything else. */
  lemma RenderInjective(t: ExifTime, u: ExifTime)
    requires ClockInRange(t) && Fraction(t) <= 999
    requires ClockInRange(u) && Fraction(u) <= 999
    requires ToString(t) == ToString(u)
    ensures t.hour == u.hour && t.minute == u.minute && t.second == u.second
    ensures Fraction(t) == Fraction(u)
  {
    var r := ToString(t);
    if HasFraction(t) { RenderWithFraction(t); } else { RenderWithoutFraction(t); }
    if HasFraction(u) { RenderWithFraction(u); } else { RenderWithoutFraction(u); }
    ClockLayout(t);
    ClockLayout(u);
    assert r[..8] == Clock(t) && r[..8] == Clock(u);
    assert Clock(t)[0..2] == Clock(u)[0..2];
    assert Clock(t)[3..5] == Clock(u)[3..5];
    assert Clock(t)[6..8] == Clock(u)[6..8];
  }

  // ---------------------------------------------------------------------
  // Structured serialization

  /** The discriminator every serialized time carries. */
  const Tag: string := "ExifTime"

  /** The serialized record; an omitted or null field is `None`. */
  datatype Record = Record(
    ctor: string,
    hour: nat,
    minute: nat,
    second: nat,
    millisecond: Option<nat>,
    rawValue: Option<string>)

  /** Serializes a time: the fixed tag and the five fields as they are. */
  function ToJson(t: ExifTime): (j: Record)
    ensures j.ctor == Tag
    ensures j.hour == t.hour && j.minute == t.minute && j.second == t.second
    ensures j.millisecond == t.millisecond && j.rawValue == t.rawValue
  {
    Record(Tag, t.hour, t.minute, t.second, t.millisecond, t.rawValue)
  }

  /** Deserializes a record without checking it. */
  function FromJson(j: Record): (t: ExifTime)
    ensures t.hour == j.hour && t.minute == j.minute && t.second == j.second
    ensures t.millisecond == j.millisecond && t.rawValue == j.rawValue
  {
    ExifTime(j.hour, j.minute, j.second, j.millisecond, j.rawValue)
  }

  /** Serializing then deserializing gives back the same time, raw text and
      absent millisecond included. */
  lemma JsonRoundTrip(t: ExifTime)
    ensures FromJson(ToJson(t)) == t
  {
  }

  /** Every tagged record is the serialization of the time it deserializes
      to, so the record format loses nothing either way. */
  lemma JsonRecordRoundTrip(j: Record)
    requires j.ctor == Tag
    ensures ToJson(FromJson(j)) == j
  {
  }
}

=== FILE: Hms.dfy ===
/** A concrete date-time engine for the bare `HH:mm:ss` pattern, written out
    by hand, and what the time parser does when driven by it: recorded
    times survive a text round trip, midnight parses, placeholders and
    garbage do not. */
module Hms {
  import opened Maybe
  import opened Strings
  import opened ExifTime

  /** Hour, minute and second of text shaped exactly `DD:DD:DD`: recognized
      text is precisely the two-digit rendering of the fields it yields. */
  function RecognizeHms(text: string): (r: Option<(nat, nat, nat)>)
    ensures r.Some? ==> |text| == 8 && text[2] == ':' && text[5] == ':'
    ensures r.Some? ==> r.value.0 < 100 && r.value.1 < 100 && r.value.2 < 100
    ensures r.Some? ==> text == Pad2(r.value.0) + ":" + Pad2(r.value.1) + ":" + Pad2(r.value.2)
  {
    if |text| == 8 && text[2] == ':' && text[5] == ':'
       && AllDigits(text[0..2]) && AllDigits(text[3..5]) && AllDigits(text[6..8])
    then
      DigitFields(text);
      Some((DigitsValue(text[0..2]), DigitsValue(text[3..5]), DigitsValue(text[6..8])))
    else None
  }

  /** Text shaped `DD:DD:DD` is the padded rendering of its three fields. */
  lemma DigitFields(text: string)
    requires |text| == 8 && text[2] == ':' && text[5] == ':'
    requires AllDigits(text[0..2]) && AllDigits(text[3..5]) && AllDigits(text[6..8])
    ensures DigitsValue(text[0..2]) < 100 && DigitsValue(text[3..5]) < 100 && DigitsValue(text[6..8]) < 100
    ensures text == Pad2(DigitsValue(text[0..2])) + ":" + Pad2(DigitsValue(text[3..5])) + ":" + Pad2(DigitsValue(text[6..8]))
  {
    TwoDigitsUnique(text[0..2]);
    TwoDigitsUnique(text[3..5]);
    TwoDigitsUnique(text[6..8]);
    assert text == text[0..2] + ":" + text[3..5] + ":" + text[6..8];
  }

  /** The engine result for a text the pattern does not fit. */
  const Invalid: DateTime := DateTime(false, 0, 0, 0, 0)

  /** A date-time engine that knows only the bare pattern: it reads
      `DD:DD:DD` as a time, valid when it is a real clock time, with a zero
      millisecond; every other text or pattern gives an invalid result. */
  function PlainEngine(text: string, f: Format): (r: Option<DateTime>)
    ensures r.Some?
    ensures r.value.isValid ==> f == Plain && RecognizeHms(text).Some?
    ensures r.value.isValid ==> r.value.hour < 24 && r.value.minute < 60 && r.value.second < 60
  {
    if f != Plain then Some(Invalid)
    else match RecognizeHms(text)
      case None => Some(Invalid)
      case Some((h, m, s)) => Some(DateTime(h < 24 && m < 60 && s < 60, h, m, s, 0))
  }

  /** The recognizer reads back what the clock renders. */
  lemma RecognizeClock(t: ExifTime)
    requires ClockInRange(t)
    ensures RecognizeHms(Clock(t)) == Some((t.hour, t.minute, t.second))
  {
    ClockLayout(t);
  }

  /** Value to text to value to text: a real clock time rendered without a fraction,
      with blank runs around it, parses with the bare pattern to the same
      clock, zero millisecond and the trimmed text as raw value, and that
      value renders to the trimmed text again. */
  lemma PlainTextRoundTrip(t: ExifTime, pre: string, post: string)
    requires t.hour < 24 && t.minute < 60 && t.second < 60 && !HasFraction(t)
    requires Blank(pre) && Blank(post)
    ensures FromExif(pre + ToString(t) + post, PlainEngine)
         == Some(ExifTime(t.hour, t.minute, t.second, Some(0), Some(ToString(t))))
    ensures ToString(FromExif(pre + ToString(t) + post, PlainEngine).value) == ToString(t)
  {
    var text := ToString(t);
    var input := pre + text + post;
    TrimmedRendering(t);
    TrimDropsBlankEnds(pre, text, post);
    assert Trim(input) == text;
    ColonIsNotSentinel(text, 2);
    PlainChosen(t);
    EarliestPatternWins(input, PlainEngine, 3);
    var u := ExifTime(t.hour, t.minute, t.second, Some(0), Some(text));
    RenderWithoutFraction(u);
  }

  /** Text to value to text: whatever the bare-pattern engine
      accepts renders back to exactly the trimmed input. */
  lemma AcceptedTextRendersBack(text: string)
    requires FromExif(text, PlainEngine).Some?
    ensures ToString(FromExif(text, PlainEngine).value) == Trim(text)
  {
    var t := Trim(text);
    var r := FromExif(text, PlainEngine);
    var i :| ChosenAt(PlainEngine, t, i) && r.value == Parsed(PlainEngine(t, Formats[i]).value, t);
    var hms := RecognizeHms(t).value;
    assert r.value == ExifTime(hms.0, hms.1, hms.2, Some(0), Some(t));
    RenderWithoutFraction(r.value);
  }

  /** A fraction-free rendering is the clock, with a colon and non-blank ends. */
  lemma TrimmedRendering(t: ExifTime)
    requires ClockInRange(t) && !HasFraction(t)
    ensures ToString(t) == Clock(t) && |Clock(t)| == 8 && Clock(t)[2] == ':'
    ensures Trimmed(ToString(t))
  {
    RenderWithoutFraction(t);
    ClockLayout(t);
    var c := Clock(t);
    assert c[0] == c[0..2][0] && c[7] == c[6..8][1];
    DigitIsNotWhitespace(c[0]);
    DigitIsNotWhitespace(c[7]);
  }

  /** On a real clock time the bare pattern is the earliest one accepted,
      and the engine reports the clock with a zero millisecond. */
  lemma PlainChosen(t: ExifTime)
    requires t.hour < 24 && t.minute < 60 && t.second < 60
    ensures ChosenAt(PlainEngine, Clock(t), 3)
    ensures PlainEngine(Clock(t), Formats[3]) == Some(DateTime(true, t.hour, t.minute, t.second, 0))
  {
    RecognizeClock(t);
  }

  /** A recorded midnight is a time, not a placeholder. */
  lemma MidnightParses()
    ensures FromExif("00:00:00", PlainEngine) == Some(ExifTime(0, 0, 0, Some(0), Some("00:00:00")))
  {
    var t := ExifTime(0, 0, 0, None, None);
    RenderWithoutFraction(t);
    Pad2Zero();
    assert ToString(t) == "00:00:00";
    PlainTextParses(t);
  }

  /** Zero pads to two zeros. */
  lemma Pad2Zero()
    ensures Pad2(0) == "00"
  {
    assert Decimal(0) == "0";
    assert Repeat('0', 1) == "0";
  }

  /** `PlainTextRoundTrip` without surrounding whitespace. */
  lemma PlainTextParses(t: ExifTime)
    requires t.hour < 24 && t.minute < 60 && t.second < 60 && !HasFraction(t)
    ensures FromExif(ToString(t), PlainEngine)
         == Some(ExifTime(t.hour, t.minute, t.second, Some(0), Some(ToString(t))))
  {
    PlainTextRoundTrip(t, [], []);
    assert [] + ToString(t) + [] == ToString(t);
  }

  /** Blank text and zero runs are rejected, whatever the engine says. */
  lemma EmptyRejected(parse: Parser)
    ensures FromExif("", parse).None?
  {
    BlankRejected("", parse);
  }

  lemma SpacesRejected(parse: Parser)
    ensures FromExif(" \t", parse).None?
  {
    BlankRejected(" \t", parse);
  }

  lemma ZeroRejected(parse: Parser)
    ensures FromExif("0", parse).None?
  {
    BareZerosRejected("0", parse);
  }

  lemma DoubleZeroRejected(parse: Parser)
    ensures FromExif("00", parse).None?
  {
    BareZerosRejected("00", parse);
  }

  lemma BareZerosRejected(zeros: string, parse: Parser)
    requires OnlyZeros(zeros)
    ensures FromExif(zeros, parse).None?
  {
    assert zeros[0] == '0' && zeros[|zeros| - 1] == '0';
    TrimOfTrimmed(zeros);
  }

  lemma BlankRejected(text: string, parse: Parser)
    requires Blank(text)
    ensures FromExif(text, parse).None?
  {
    TrimEmptyIffBlank(text);
  }

  lemma ZerosRejected(pre: string, zeros: string, post: string, parse: Parser)
    requires Blank(pre) && Blank(post) && OnlyZeros(zeros)
    ensures FromExif(pre + zeros + post, parse).None?
  {
    assert zeros[0] == '0' && zeros[|zeros| - 1] == '0';
    TrimDropsBlankEnds(pre, zeros, post);
  }

  /** Under the bare-pattern engine, "not-a-time" is accepted by no pattern,
      so the parse gives nothing. */
  lemma GarbageRejected()
    ensures FromExif("not-a-time", PlainEngine).None?
  {
    TrimOfTrimmed("not-a-time");
  }
}

=== FILE: Maybe.dfy ===
/** Optional values and the ordered first-match combinator that the time
    parser uses to try its format patterns one after another. */
module Maybe {

  /** A value that may be absent; `None` stands for the JavaScript
      `undefined` that `fromEXIF` and `fromDateTime` return on failure. */
  datatype Option<+T> = None | Some(value: T)

  /** Applies `f` to a present value and passes absence through. */
  function Bind<T, U>(o: Option<T>, f: T -> Option<U>): (r: Option<U>)
    ensures o.None? ==> r.None?
    ensures o.Some? ==> r == f(o.value)
  {
    match o
    case None => None
    case Some(v) => f(v)
  }

  /** The result of the earliest element of `xs` for which `f` yields a value,
      or `None` when every element yields nothing. Elements after the first
      success are never looked at. */
  function First<T, U>(xs: seq<T>, f: T -> Option<U>): (r: Option<U>)
    ensures r.None? <==> forall i :: 0 <= i < |xs| ==> f(xs[i]).None?
    ensures r.Some? ==> exists i :: 0 <= i < |xs| && f(xs[i]) == r && FailsBefore(xs, f, i)
  {
    if |xs| == 0 then None
    else match f(xs[0])
      case Some(v) => Some(v)
      case None =>
        var r := First(xs[1..], f);
        ShiftWitness(xs, f, r);
        r
  }

  /** Every element strictly before position `i` yields nothing. */
  predicate FailsBefore<T, U>(xs: seq<T>, f: T -> Option<U>, i: int)
    requires 0 <= i <= |xs|
  {
    forall j :: 0 <= j < i ==> f(xs[j]).None?
  }

  /** A success found in the tail of `xs`, after a failing head, is a
      success at the next position of `xs` itself. */
  lemma ShiftWitness<T, U>(xs: seq<T>, f: T -> Option<U>, r: Option<U>)
    requires 0 < |xs| && f(xs[0]).None?
    requires r.Some? ==> exists i :: 0 <= i < |xs| - 1 && f(xs[1..][i]) == r && FailsBefore(xs[1..], f, i)
    ensures r.Some? ==> exists i :: 0 <= i < |xs| && f(xs[i]) == r && FailsBefore(xs, f, i)
  {
    if r.Some? {
      var i :| 0 <= i < |xs| - 1 && f(xs[1..][i]) == r && FailsBefore(xs[1..], f, i);
      assert f(xs[i + 1]) == r && FailsBefore(xs, f, i + 1);
    }
  }

  /** First looks at nothing past the first success: two functions that agree
      on the prefix up to and including a successful position give the same
      result, whatever they do on the rest of the list. */
  lemma {:induction false} FirstIgnoresSuffix<T, U>(xs: seq<T>, f: T -> Option<U>, g: T -> Option<U>, i: nat)
    requires i < |xs|
    requires forall j :: 0 <= j <= i ==> f(xs[j]) == g(xs[j])
    requires f(xs[i]).Some?
    ensures First(xs, f) == First(xs, g)
  {
    if f(xs[0]).None? {
      assert i > 0;
      FirstIgnoresSuffix(xs[1..], f, g, i - 1);
    }
  }
}

=== FILE: Strings.dfy ===
/** The small string helpers the time type relies on: JavaScript-style
    whitespace trimming, the blank test, decimal rendering of naturals and
    left padding with '0'. */
module Strings {

  /** The characters ECMAScript's `String.prototype.trim` removes: the
      WhiteSpace and LineTerminator code points. */
  predicate IsWhitespace(c: char) {
    || c == '\t' || c == '\n' || c == '\U{B}' || c == '\U{C}' || c == '\r' || c == ' '
    || c == '\U{A0}' || c == '\U{1680}' || ('\U{2000}' <= c <= '\U{200A}')
    || c == '\U{2028}' || c == '\U{2029}' || c == '\U{202F}' || c == '\U{205F}'
    || c == '\U{3000}' || c == '\U{FEFF}'
  }

  /** Every character of `s` is whitespace (so the empty string is blank). */
  predicate Blank(s: string) {
    forall k :: 0 <= k < |s| ==> IsWhitespace(s[k])
  }

  /** Neither end of `s` is whitespace: `s` is a fixed point of trimming. */
  predicate Trimmed(s: string) {
    |s| == 0 || (!IsWhitespace(s[0]) && !IsWhitespace(s[|s| - 1]))
  }

  /** Length of the whitespace run at the start of `s`. */
  function LeadingSpace(s: string): (n: nat)
    ensures n <= |s|
    ensures Blank(s[..n])
    ensures n < |s| ==> !IsWhitespace(s[n])
  {
    if |s| > 0 && IsWhitespace(s[0]) then 1 + LeadingSpace(s[1..]) else 0
  }

  /** Length of the whitespace run at the end of `s`. */
  function TrailingSpace(s: string): (n: nat)
    ensures n <= |s|
    ensures Blank(s[|s| - n..])
    ensures n < |s| ==> !IsWhitespace(s[|s| - 1 - n])
  {
    if |s| > 0 && IsWhitespace(s[|s| - 1]) then 1 + TrailingSpace(s[..|s| - 1]) else 0
  }

  /** `s` with its leading and trailing whitespace removed: the longest
      infix of `s` that is `Trimmed`, such that everything cut off is blank. */
  function Trim(s: string): (r: string)
    ensures |r| <= |s|
    ensures Trimmed(r)
    ensures exists a :: 0 <= a <= |s| - |r| && r == s[a..a + |r|] && Blank(s[..a]) && Blank(s[a + |r|..])
  {
    var a := LeadingSpace(s);
    var b := TrailingSpace(s[a..]);
    var e := |s| - b;
    assert s[a..][|s[a..]| - b..] == s[e..];
    assert a < |s| ==> b < |s| - a;
    assert a < e ==> s[e - 1] == s[a..][|s[a..]| - 1 - b];
    s[a..e]
  }

  /** Trimming leaves an already trimmed string alone, so it is idempotent. */
  lemma TrimOfTrimmed(s: string)
    requires Trimmed(s)
    ensures Trim(s) == s
  {
  }

  /** Trimming adds back nothing it removed: surrounding `x` with blank runs
      does not change what trimming yields for a trimmed `x`. */
  lemma {:induction false} TrimDropsBlankEnds(pre: string, x: string, post: string)
    requires Blank(pre) && Blank(post) && Trimmed(x) && |x| > 0
    ensures Trim(pre + x + post) == x
  {
    var s := pre + (x + post);
    assert s == pre + x + post;
    LeadingOfPadded(pre, x + post);
    assert s[|pre|..] == x + post;
    TrailingOfPadded(x, post);
    assert s[|pre|..|s| - |post|] == x;
  }

  lemma {:induction false} LeadingOfPadded(pre: string, rest: string)
    requires Blank(pre) && |rest| > 0 && !IsWhitespace(rest[0])
    ensures LeadingSpace(pre + rest) == |pre|
  {
    if |pre| > 0 {
      assert (pre + rest)[1..] == pre[1..] + rest;
      LeadingOfPadded(pre[1..], rest);
    }
  }

  lemma {:induction false} TrailingOfPadded(rest: string, post: string)
    requires Blank(post) && |rest| > 0 && !IsWhitespace(rest[|rest| - 1])
    ensures TrailingSpace(rest + post) == |post|
  {
    if |post| > 0 {
      assert (rest + post)[..|rest + post| - 1] == rest + post[..|post| - 1];
      TrailingOfPadded(rest, post[..|post| - 1]);
    }
  }

  /** Trimming yields the empty string exactly when the input is blank. */
  lemma TrimEmptyIffBlank(s: string)
    ensures Trim(s) == [] <==> Blank(s)
  {
    if Blank(s) {
      LeadingOfBlank(s);
      assert s[|s|..] == [];
    } else {
      var a :| 0 <= a <= |s| - |Trim(s)| && Trim(s) == s[a..a + |Trim(s)|]
        && Blank(s[..a]) && Blank(s[a + |Trim(s)|..]);
      BlankOfParts(s, a);
    }
  }

  /** A string split into two blank parts is blank. */
  lemma BlankOfParts(s: string, a: nat)
    requires a <= |s|
    ensures Blank(s[..a]) && Blank(s[a..]) ==> Blank(s)
  {
    if Blank(s[..a]) && Blank(s[a..]) {
      forall k | 0 <= k < |s|
        ensures IsWhitespace(s[k])
      {
        if k < a { assert s[..a][k] == s[k]; } else { assert s[a..][k - a] == s[k]; }
      }
    }
  }

  lemma {:induction false} LeadingOfBlank(s: string)
    requires Blank(s)
    ensures LeadingSpace(s) == |s|
  {
    if |s| > 0 {
      LeadingOfBlank(s[1..]);
    }
  }

  // ---------------------------------------------------------------------
  // Decimal digits

  predicate IsDigit(c: char) {
    '0' <= c <= '9'
  }

  lemma DigitIsNotWhitespace(c: char)
    requires IsDigit(c)
    ensures !IsWhitespace(c)
  {
  }

  predicate AllDigits(s: string) {
    forall k :: 0 <= k < |s| ==> IsDigit(s[k])
  }

  function DigitChar(d: nat): (c: char)
    requires d < 10
    ensures IsDigit(c)
  {
    ['0', '1', '2', '3', '4', '5', '6', '7', '8', '9'][d]
  }

  function DigitValue(c: char): (d: nat)
    requires IsDigit(c)
    ensures d < 10
  {
    (c as int - '0' as int) as nat
  }

  /** The number a run of decimal digits denotes, most significant first. */
  function DigitsValue(s: string): nat
    requires AllDigits(s)
  {
    if |s| == 0 then 0 else 10 * DigitsValue(s[..|s| - 1]) + DigitValue(s[|s| - 1])
  }

  /** The shortest decimal rendering of `n`: digits only, no leading zero
      except for zero itself. For `n` below 10^21 this is what JavaScript's
      `String(n)` gives. */
  function Decimal(n: nat): (r: string)
    ensures AllDigits(r)
    ensures 0 < |r|
    ensures DigitsValue(r) == n
    ensures |r| == 1 || r[0] != '0'
  {
    if n < 10 then [DigitChar(n)]
    else
      var h := Decimal(n / 10);
      var r := h + [DigitChar(n % 10)];
      assert r[..|r| - 1] == h;
      assert |h| == 1 ==> DigitsValue(h) == DigitValue(h[0]) by {
        if |h| == 1 { assert h[..0] == []; }
      }
      assert r[0] == h[0];
      r
  }

  /** Decimal renderings stay within `k` digits below 10^k. */
  lemma {:induction false} DecimalLength(n: nat, k: nat)
    ensures 0 < k && n < Pow10(k) ==> |Decimal(n)| <= k
  {
    if 0 < k && n < Pow10(k) && n >= 10 {
      DecimalLength(n / 10, k - 1);
    }
  }

  function Pow10(k: nat): (p: nat)
    ensures p > 0
  {
    if k == 0 then 1 else 10 * Pow10(k - 1)
  }

  /** `count` copies of `c`. */
  function Repeat(c: char, count: nat): (r: string)
    ensures |r| == count
    ensures forall k :: 0 <= k < count ==> r[k] == c
  {
    if count == 0 then [] else [c] + Repeat(c, count - 1)
  }

  /** Leading zeros do not change the number a digit run denotes. */
  lemma {:induction false} LeadingZeros(z: nat, s: string)
    requires AllDigits(s)
    ensures AllDigits(Repeat('0', z) + s)
    ensures DigitsValue(Repeat('0', z) + s) == DigitsValue(s)
  {
    var t := Repeat('0', z) + s;
    if |s| == 0 {
      assert t == Repeat('0', z);
      ZerosValue(z);
    } else {
      assert t[..|t| - 1] == Repeat('0', z) + s[..|s| - 1];
      LeadingZeros(z, s[..|s| - 1]);
    }
  }

  /** A run of zeros denotes zero. */
  lemma {:induction false} ZerosValue(z: nat)
    ensures AllDigits(Repeat('0', z))
    ensures DigitsValue(Repeat('0', z)) == 0
  {
    if z > 0 {
      assert Repeat('0', z)[..z - 1] == Repeat('0', z - 1);
      ZerosValue(z - 1);
    }
  }

  /** `n` in decimal, left-padded with '0' to at least `width` characters;
      a longer rendering is kept whole. */
  function Pad(n: nat, width: nat): (r: string)
    ensures AllDigits(r)
    ensures |r| == if |Decimal(n)| < width then width else |Decimal(n)|
    ensures DigitsValue(r) == n
    ensures width <= |Decimal(n)| ==> r == Decimal(n)
  {
    var d := Decimal(n);
    var z := if |d| < width then width - |d| else 0;
    LeadingZeros(z, d);
    Repeat('0', z) + d
  }

  /** Two-digit left padding; a number of three or more digits is kept whole. */
  function Pad2(n: nat): (r: string)
    ensures AllDigits(r) && DigitsValue(r) == n
    ensures n < 100 ==> |r| == 2
    ensures n >= 100 ==> r == Decimal(n)
  {
    assert Pow10(2) == 100;
    DecimalLength(n, 2);
    Pad(n, 2)
  }

  /** Three-digit left padding; a number of four or more digits is kept whole. */
  function Pad3(n: nat): (r: string)
    ensures AllDigits(r) && DigitsValue(r) == n
    ensures n < 1000 ==> |r| == 3
    ensures n >= 1000 ==> r == Decimal(n)
  {
    assert Pow10(3) == 1000;
    DecimalLength(n, 3);
    Pad(n, 3)
  }

  /** A two-digit run denotes ten times its first digit plus its second. */
  lemma TwoDigitsValue(d: string)
    requires |d| == 2 && AllDigits(d)
    ensures DigitsValue(d) == 10 * DigitValue(d[0]) + DigitValue(d[1])
  {
    var a := d[..1];
    assert a[..0] == [];
    assert DigitsValue(a) == DigitValue(d[0]);
  }

  /** Two-digit padding is the only two-digit run with its value, so every
      two-digit run is the padding of the number it denotes. */
  lemma TwoDigitsUnique(d: string)
    requires |d| == 2 && AllDigits(d)
    ensures DigitsValue(d) < 100
    ensures Pad2(DigitsValue(d)) == d
  {
    TwoDigitsValue(d);
    var p := Pad2(DigitsValue(d));
    TwoDigitsValue(p);
    SameDigitPair(p, d);
  }

  /** Two two-digit runs with the same value are the same run. */
  lemma SameDigitPair(p: string, d: string)
    requires |p| == 2 && AllDigits(p) && |d| == 2 && AllDigits(d)
    requires 10 * DigitValue(p[0]) + DigitValue(p[1]) == 10 * DigitValue(d[0]) + DigitValue(d[1])
    ensures p == d
  {
    assert DigitValue(p[0]) == DigitValue(d[0]);
    assert p[0] == d[0] && p[1] == d[1];
  }
}
